=== FILE: README.md ===
# Roster screen and app-state persistence, modelled in Dafny

This project models the two pieces of sequential logic in a shift-scheduling
web app's personnel screen.

- **App-state persistence** (`utils/localStorageState.ts`) keeps one versioned
  JSON record under the key `vdfmi.appState.v1` of the browser's key/value
  store. `Load` reads each of these cases as "absent": no storage, a missing
  or empty entry, unparsable text, a falsy document, a version other than 1,
  or `events` that is not an array. `Save` stamps the record with version 1
  and a timestamp and writes it, swallowing an exception thrown by the write. `Clear` removes the key.
  The store is a `map<string, Stored>`, and the operations are pure functions
  from store to store. Whether storage exists, whether a write or removal
  throws, and the clock reading are all inputs.
- **Roster logic of the staff view** (`components/StaffView.tsx`) covers three
  things. The search/group/site filter. The `YYYY-MM-DD` → `DD/MM/YYYY` date
  label and the status text built from it. The update that marks every
  operator with the selected identifier unavailable and leaves all others as
  they were.

Files:

- `wrappers.dfy` has `Option`.
- `json.dfy` has the JSON values `JSON.parse` yields, JavaScript truthiness,
  and property lookup.
- `text.dfy` has ASCII case mapping, `includes` and `split`.
- `local_storage_state.dfy` is the persistence module.
- `staff_view.dfy` is the roster logic.

Three behaviours of the code are easy to miss:

- A load returns the parsed document unchanged, extra fields included. Only
  `version` and `events` are checked. The types of `savedAt`, `selectedDate`
  and `role` are never looked at. `Decode` is the typed view a caller takes of
  that document. It is the partner of `Encode`, not a step of the load.
- Besides a missing record, the empty text and any falsy parsed value
  (`null`, `false`, `0`, `""`) also read as absent.
- A save spreads its argument after the version and timestamp. An argument
  that carries its own `version` or `savedAt`, such as a previously loaded
  record, overrides the stamp. The model keeps such extra properties in
  `AppState.extra`.

The model shows one quirk of the code. A date input with no dash, such as an
emptied one, is labelled `undefined/undefined/<text>`, because the source
destructures the missing parts of the split.

## Model

| member | source | states |
|---|---|---|
| Json.Truthy | utils/localStorageState.ts:39 | exactly four JSON values are falsy: `null`, `false`, `0` and `""`; every array and object is truthy |
| AppStatePersistence.Load | utils/localStorageState.ts:33-44 | absent without storage, for a missing, empty or unparsable entry, and for a falsy document; present exactly when storage exists and the entry is a document with version 1 and an array `events`, and then it is that document unchanged |
| AppStatePersistence.LoadReadsOnlyItsKey | utils/localStorageState.ts:35 | two stores that agree on the storage key load the same result, so no other key is read |
| AppStatePersistence.VersionGuard | utils/localStorageState.ts:40 | a stored record whose version is anything but 1 loads as absent, even when otherwise well formed |
| AppStatePersistence.ShapeGuard | utils/localStorageState.ts:41 | a stored record whose `events` is replaced by any non-array loads as absent |
| AppStatePersistence.Stamp | utils/localStorageState.ts:48-52 | the typed record a save means to write always passes both load guards once serialised |
| AppStatePersistence.Encode | utils/localStorageState.ts:54 | the serialised record is an object holding the events array, and it passes the load guards exactly when its version is 1 |
| AppStatePersistence.DecodeEncode | utils/localStorageState.ts:15-21 | reading the typed record back from its serialised form gives the record that was written, optional fields included |
| AppStatePersistence.Payload | utils/localStorageState.ts:48-54 | the written document holds the argument's events, and its date and role whenever they are defined; it has version 1 and the clock reading unless the argument carries its own `version` or `savedAt`; every extra own property of the argument is copied; and it passes the load guards exactly when any overriding version is 1 |
| AppStatePersistence.PayloadOfDeclaredFields | utils/localStorageState.ts:48-52 | for an argument holding only events, date and role, the written document is the serialised typed record with version 1 and the clock reading |
| AppStatePersistence.Save | utils/localStorageState.ts:46-58 | no key but the storage key changes; without storage or when the write throws, the store is left exactly as it was; otherwise the key holds the written document |
| AppStatePersistence.SaveThenLoad | utils/localStorageState.ts:46-55 | after a successful save of an argument without colliding extra properties, a load returns the written document, whose typed view has version 1, `savedAt` equal to the clock reading, and the saved events, date and role |
| AppStatePersistence.SpreadOverridesStamp | utils/localStorageState.ts:48-52 | an argument with its own `savedAt` is saved with that timestamp, and one with its own version other than 1 is saved in a form the next load drops |
| AppStatePersistence.FailedSaveKeepsLoad | utils/localStorageState.ts:53-57 | a save without storage or with a failing write leaves what a later load returns unchanged |
| AppStatePersistence.SaveOverwrites | utils/localStorageState.ts:54 | each save replaces the whole record: saving twice equals saving only the second state |
| AppStatePersistence.Clear | utils/localStorageState.ts:60-67 | no key but the storage key changes; a successful clear removes it; without storage or when removal throws, the store is unchanged |
| AppStatePersistence.ClearIdempotent | utils/localStorageState.ts:62-63 | clearing a cleared store, whether or not the second call succeeds, leaves it as the first clear did |
| AppStatePersistence.ClearThenLoad | utils/localStorageState.ts:60-67 | a load after a successful clear is absent, also when a save came before the clear |
| Text.ToLower | components/StaffView.tsx:65 | lower-casing keeps the length, turns each upper-case ASCII letter into its lower-case letter, and keeps every other character in place |
| Text.ToUpper | components/StaffView.tsx:51 | upper-casing keeps the length, turns each lower-case ASCII letter into its capital, and keeps every other character in place |
| Text.Contains | components/StaffView.tsx:65 | `includes` holds exactly when the needle occurs at some position of the string |
| Text.LowerForgetsCase | components/StaffView.tsx:65 | lower-casing ignores how the text was cased before, and lower-casing twice equals lower-casing once |
| Text.Split | components/StaffView.tsx:43 | splitting always yields at least one part, and no part holds the separator |
| Text.JoinSplit | components/StaffView.tsx:43 | joining the parts of a split with the separator gives back the original text |
| Text.SplitJoin | components/StaffView.tsx:43 | splitting dash-free parts joined by dashes gives back exactly those parts |
| StaffView.Keeps | components/StaffView.tsx:65-68 | with an empty search and both selectors off every operator passes, and a passing operator has a name or id at least as long as the search |
| StaffView.FilterOperators | components/StaffView.tsx:63-70 | the shown list is no longer than the roster, and each of its entries is on the roster and passes all three filters |
| StaffView.FilterIsSubsequence | components/StaffView.tsx:63-64 | the shown list is an order-preserving subsequence of the roster |
| StaffView.FilterKeepsExactly | components/StaffView.tsx:64-69 | an operator is shown exactly when it is on the roster and its name or id contains the search (ignoring case), its subgroup matches or the group filter is `TUTTI`, and its site matches or the site filter is `TUTTE` |
| StaffView.FilterAppend | components/StaffView.tsx:64 | filtering a concatenation is concatenating the filtered halves, so each operator is decided on its own |
| StaffView.FilterIdempotent | components/StaffView.tsx:64-69 | filtering the shown list again with the same controls changes nothing |
| StaffView.FilterWithoutCriteria | components/StaffView.tsx:65-67 | an empty search with `TUTTI` and `TUTTE` shows the whole roster |
| StaffView.SearchIgnoresCase | components/StaffView.tsx:65 | typing the search in upper case selects the same operators |
| StaffView.FormatDateLabel | components/StaffView.tsx:42-45 | a `YYYY-MM-DD` date is labelled `DD/MM/YYYY`, and a text without a dash is labelled `undefined/undefined/` followed by the text |
| StaffView.FormatDateLabelOfParts | components/StaffView.tsx:42-45 | for dash-free `y`, `m`, `d`, the label of `y-m-d` is `d/m/y`, and parts after a third dash are ignored |
| StaffView.FormatIsoDate | components/StaffView.tsx:42-45 | the label of a `YYYY-MM-DD` date has ten characters with slashes at positions 2 and 5 |
| StaffView.IsoLabelInjective | components/StaffView.tsx:42-45 | two ISO dates with the same label are the same date |
| StaffView.StatusMessage | components/StaffView.tsx:51 | the status starts with the upper-cased cause and ` (`, ends with `)`, and is 26 characters longer than the cause when both dates are ISO dates |
| StaffView.ReasonsUpperCase | components/StaffView.tsx:238 | the three offered causes upper-case to `INDISPOSIZIONE`, `FERIE` and `ARTICOLI` |
| StaffView.StatusMessageFormat | components/StaffView.tsx:51 | for any cause and two ISO dates, the status is the upper-cased cause, ` (`, the start label, ` - `, the end label and `)`, 26 characters longer than the cause |
| StaffView.OfferedCauseStatus | components/StaffView.tsx:238 | the status of each offered cause starts with `INDISPOSIZIONE`, `FERIE` or `ARTICOLI` |
| StaffView.OpenDialog | components/StaffView.tsx:34-38 | the dialog opens on one of the offered causes, and saving it unchanged on an ISO day gives `FERIE (` + the day's label + ` - ` + the same label + `)`, 31 characters |
| StaffView.Withdraw | components/StaffView.tsx:55 | the updated operator is unavailable, has zero hours and the given status, and keeps every other field |
| StaffView.MarkUnavailable | components/StaffView.tsx:53-57 | the update keeps length, order and every id; each operator with the selected id is withdrawn with the status, and every other operator is unchanged |
| StaffView.SaveUnavailability | components/StaffView.tsx:47-58 | with no selected operator the roster is unchanged; otherwise the operators with the selected id get the status built from the dialog, and all others are kept |
| StaffView.MarkUnavailableIdempotent | components/StaffView.tsx:53-57 | marking the same id twice with the same status equals marking it once |
| StaffView.MarkUnavailableAvailability | components/StaffView.tsx:55 | after the update an operator is available exactly when it was before and has another id |
| StaffView.MarkUnavailableKeepsFilter | components/StaffView.tsx:53-69 | filtering the updated roster equals updating the filtered roster, so marking someone unavailable never changes who is shown |

## Left out

- Rendering: the JSX, CSS classes, the SVG icon, the modal open/close flags, and the `useState`/`useMemo` wiring (components/StaffView.tsx:6-13, 72-284). These are presentation only. The clearing of the selection after a save (components/StaffView.tsx:59-60) is left out for the same reason.
- `openUnavailabilityModal` (components/StaffView.tsx:31-40) is modelled only as the dialog contents it sets (`OpenDialog`). Remembering the selected operator and opening the modal are presentation. Today's date is a parameter.
- Browser detection and the real `window.localStorage` (utils/localStorageState.ts:23). They are reduced to a map plus `available`, `writeFails` and `removeFails` inputs. `available` stands only for storage that is missing.
- An exception thrown while reaching `window.localStorage` itself, such as a browser that denies storage access, is not modelled. Neither the check at utils/localStorageState.ts:23 nor the `getItem` read at utils/localStorageState.ts:35 sits inside a `try`, so in the source that exception reaches the caller of load, save and clear.
- The internals of `JSON.parse`/`JSON.stringify`. Stored text is classified as empty, unparsable, or a parsed document, and serialising a record is taken to be faithful. Properties of the save argument whose value is `undefined` are not modelled: `JSON.stringify` drops them. JSON numbers are mathematical reals. Key order inside objects is not kept. Properties a parsed value inherits from JavaScript prototypes are not modelled.
- `OperationalEvent` and `UserRole` are defined in `../types`, which is not part of this model. An event is represented by the JSON value it is persisted as, and a role by its string value.
- The `Operator` type is also defined in `../types`. Its fields here are inferred from how the screen uses them, and `assignedHours` is an integer.
- `new Date().toISOString()` (utils/localStorageState.ts:50; components/StaffView.tsx:23, 36). Timestamps and dates are parameters.
- Text.ToLower: only ASCII letters change case. Full Unicode case mapping of `toLowerCase`/`toUpperCase` is not modelled.
- Text.ToUpper: only ASCII letters change case, for the same reason.
- The constants `MOCK_OPERATORS`, `ALL_SEDI` and `SEQ`, which are not part of this model, and the zero-padding of hours in the table (components/StaffView.tsx:190).

=== FILE: json.dfy ===
/** The JSON values that `JSON.parse` can produce, with JavaScript's view of
    them: truthiness and property lookup. Numbers are kept as mathematical
    reals; `JSON.parse` never yields NaN or an infinity. */
module Json {
  import opened Wrappers

  datatype Json =
    | JNull
    | JBool(b: bool)
    | JNum(n: real)
    | JStr(s: string)
    | JArr(items: seq<Json>)
    | JObj(fields: map<string, Json>)

  /** JavaScript truthiness: `null`, `false`, `0` (and `-0`) and `""` are falsy;
      every array and object, even an empty one, is truthy. */
  function Truthy(j: Json): (b: bool)
    ensures !b <==> j in {JNull, JBool(false), JNum(0.0), JStr("")}
  {
    match j
    case JNull => false
    case JBool(b) => b
    case JNum(n) => n != 0.0
    case JStr(s) => s != ""
    case JArr(_) => true
    case JObj(_) => true
  }

  /** `j.name` for a truthy parsed value: an own field of an object, and
      `undefined` (None) for anything that is not an object. */
  function Property(j: Json, name: string): Option<Json> {
    match j
    case JObj(fields) => if name in fields then Some(fields[name]) else None
    case _ => None
  }

  /** `Array.isArray(v)` where `v` may be `undefined`. */
  predicate IsArray(v: Option<Json>) {
    v.Some? && v.value.JArr?
  }
}

=== FILE: local_storage_state.dfy ===
/** Versioned persistence of the application state under one key of the
    browser's key/value store (utils/localStorageState.ts).

    The store is threaded through the operations as a map from keys to stored
    texts. What the browser decides at run time becomes an input: whether a
    storage object exists at all (`available`), whether a write or removal
    throws (`writeFails`, `removeFails`), and the clock reading that stamps a
    save (`now`). */
module AppStatePersistence {
  import opened Wrappers
  import opened Json

  const StorageKey: string := "vdfmi.appState.v1"
  const StorageVersion: real := 1.0

  /** The text held under a key, classified by what `JSON.parse` makes of it:
      the empty text, any other text that does not parse, or a parsed document. */
  datatype Stored = Blank | Garbage | Doc(doc: Json)

  type Store = map<string, Stored>

  /** The argument of a save: the record without its version and timestamp.
      Each operational event is kept as the JSON value it is persisted as;
      the role is the user-role enumeration's string value. `extra` holds any
      other own property of the argument object: the declared type does not
      stop a caller passing a wider object, such as a loaded record. */
  datatype AppState = AppState(
    events: seq<Json>,
    selectedDate: Option<string>,
    role: Option<string>,
    extra: map<string, Json>)

  /** The keys of a persisted record. */
  const RecordKeys: set<string> := {"version", "savedAt", "events", "selectedDate", "role"}

  /** A save argument with no own property beyond its declared fields that
      could collide with the record's keys. */
  predicate IsPlainState(state: AppState) {
    state.extra.Keys !! RecordKeys
  }

  /** The record as written to the store. */
  datatype PersistedState = PersistedState(
    version: real,
    savedAt: string,
    events: seq<Json>,
    selectedDate: Option<string>,
    role: Option<string>)

  /** `getItem(k)` answers alike on both stores. */
  predicate SameEntry(a: Store, b: Store, k: string) {
    GetItem(a, k) == GetItem(b, k)
  }

  /** `b` differs from `a` at most under `key`. */
  ghost predicate UnchangedExcept(a: Store, b: Store, key: string) {
    forall k {:trigger SameEntry(a, b, k)} :: k != key ==> SameEntry(a, b, k)
  }

  /** A parsed document that passes both guards of a load. */
  predicate IsUsableRecord(j: Json) {
    && j.JObj?
    && "version" in j.fields && j.fields["version"] == JNum(StorageVersion)
    && "events" in j.fields && j.fields["events"].JArr?
  }

  /** `localStorage.getItem`: None stands for `null`, the missing key. */
  function GetItem(store: Store, key: string): Option<Stored> {
    if key in store then Some(store[key]) else None
  }

  /** Parsing that never raises. A text that does not parse and the text
      `null` both come back as None: the catch branch returns `null`, which
      the caller cannot tell from a parsed `null`. */
  function SafeJsonParse(raw: Stored): (r: Option<Json>)
    ensures r.Some? ==> raw == Doc(r.value) && r.value != JNull
  {
    match raw
    case Doc(j) => if j == JNull then None else Some(j)
    case _ => None
  }

  /** Reads the persisted record. Each of these reads as "absent": no storage,
      no entry, the empty text, unparsable text, a falsy document, a version
      other than StorageVersion, or `events` that is not an array. Otherwise the
      parsed document is returned as it is, extra fields included. */
  function Load(store: Store, available: bool): (r: Option<Json>)
    ensures !available ==> r == None
    ensures StorageKey !in store || store[StorageKey].Blank? || store[StorageKey].Garbage? ==> r == None
    ensures StorageKey in store && store[StorageKey].Doc? && !Truthy(store[StorageKey].doc) ==> r == None
    ensures r.Some? <==> available && StorageKey in store && store[StorageKey].Doc? && IsUsableRecord(store[StorageKey].doc)
    ensures r.Some? ==> r.value == store[StorageKey].doc
  {
    if !available then None
    else
      var raw := GetItem(store, StorageKey);
      if raw.None? || raw.value.Blank? then None
      else
        var parsed := SafeJsonParse(raw.value);
        if parsed.None? || !Truthy(parsed.value) then None
        else if Property(parsed.value, "version") != Some(JNum(StorageVersion)) then None
        else if !IsArray(Property(parsed.value, "events")) then None
        else parsed
  }

  /** The typed record a save means to write: version StorageVersion, the
      clock reading, and the caller's declared fields. */
  function Stamp(state: AppState, now: string): (p: PersistedState)
    ensures IsUsableRecord(Encode(p))
  {
    PersistedState(StorageVersion, now, state.events, state.selectedDate, state.role)
  }

  /** A field that `JSON.stringify` writes only when it is defined. */
  function OptionalField(name: string, v: Option<string>): map<string, Json> {
    match v
    case None => map[]
    case Some(s) => map[name := JStr(s)]
  }

  /** The document `JSON.stringify` produces for a record, as `JSON.parse`
      reads it back. */
  function Encode(p: PersistedState): (j: Json)
    ensures j.JObj? && "events" in j.fields && j.fields["events"] == JArr(p.events)
    ensures IsUsableRecord(j) <==> p.version == StorageVersion
  {
    JObj(map["version" := JNum(p.version), "savedAt" := JStr(p.savedAt), "events" := JArr(p.events)]
         + OptionalField("selectedDate", p.selectedDate)
         + OptionalField("role", p.role))
  }

  /** Reads an optional string field: absent is None, a string is Some, any
      other value makes the field unreadable. */
  function OptionalString(fields: map<string, Json>, name: string): Option<Option<string>> {
    if name !in fields then Some(None)
    else match fields[name]
      case JStr(s) => Some(Some(s))
      case _ => None
  }

  /** The typed view a caller takes of a loaded document: None when a field
      of the record has the wrong JSON type. */
  function Decode(j: Json): (r: Option<PersistedState>)
    ensures r.Some? ==> j.JObj? && "events" in j.fields && j.fields["events"] == JArr(r.value.events)
    ensures r.Some? ==> "version" in j.fields && j.fields["version"] == JNum(r.value.version)
  {
    match j
    case JObj(f) =>
      if && "version" in f && f["version"].JNum?
         && "savedAt" in f && f["savedAt"].JStr?
         && "events" in f && f["events"].JArr?
      then
        var date := OptionalString(f, "selectedDate");
        var role := OptionalString(f, "role");
        if date.Some? && role.Some?
        then Some(PersistedState(f["version"].n, f["savedAt"].s, f["events"].items, date.value, role.value))
        else None
      else None
    case _ => None
  }

  /** The declared fields of a save argument as `JSON.stringify` writes them. */
  function StateFields(state: AppState): map<string, Json> {
    map["events" := JArr(state.events)]
    + OptionalField("selectedDate", state.selectedDate)
    + OptionalField("role", state.role)
  }

  /** The document a save writes: version and timestamp first, then every own
      property of the argument spread over them, so that an argument carrying
      its own `version` or `savedAt` overrides the stamp. */
  function Payload(state: AppState, now: string): (j: Json)
    ensures j.JObj? && "events" in j.fields && j.fields["events"] == JArr(state.events)
    ensures "version" !in state.extra ==> "version" in j.fields && j.fields["version"] == JNum(StorageVersion)
    ensures "savedAt" !in state.extra ==> "savedAt" in j.fields && j.fields["savedAt"] == JStr(now)
    ensures state.selectedDate.Some? ==>
              "selectedDate" in j.fields && j.fields["selectedDate"] == JStr(state.selectedDate.value)
    ensures state.role.Some? ==> "role" in j.fields && j.fields["role"] == JStr(state.role.value)
    ensures forall k :: k in state.extra && k !in {"events", "selectedDate", "role"} ==>
              k in j.fields && j.fields[k] == state.extra[k]
    ensures IsUsableRecord(j) <==> ("version" !in state.extra || state.extra["version"] == JNum(StorageVersion))
  {
    JObj(map["version" := JNum(StorageVersion), "savedAt" := JStr(now)] + state.extra + StateFields(state))
  }

  /** Writes the stamped record under StorageKey. When there is no storage, or
      when `setItem` itself throws (a full quota, say), the store is left as it
      was and nothing is reported. */
  function Save(store: Store, available: bool, writeFails: bool, state: AppState, now: string): (r: Store)
    ensures UnchangedExcept(store, r, StorageKey)
    ensures !available || writeFails ==> r == store
    ensures available && !writeFails ==> StorageKey in r && r[StorageKey] == Doc(Payload(state, now))
  {
    if !available then store
    else if writeFails then store
    else store[StorageKey := Doc(Payload(state, now))]
  }

  /** Removes StorageKey. No storage, or a removal that throws, leaves the
      store as it was. */
  function Clear(store: Store, available: bool, removeFails: bool): (r: Store)
    ensures UnchangedExcept(store, r, StorageKey)
    ensures available && !removeFails ==> StorageKey !in r
    ensures !available || removeFails ==> r == store
  {
    if !available then store
    else if removeFails then store
    else store - {StorageKey}
  }

  // ---------------------------------------------------------------------------
  // Properties relating several calls
  // ---------------------------------------------------------------------------

  /** Decoding inverts encoding: the record written is the record read. */
  lemma DecodeEncode(p: PersistedState)
    ensures Decode(Encode(p)) == Some(p)
  {
  }

  /** For an argument holding only its declared fields, the written document
      is the serialised typed record. */
  lemma PayloadOfDeclaredFields(state: AppState, now: string)
    requires state.extra == map[]
    ensures Payload(state, now) == Encode(Stamp(state, now))
  {
  }

  /** After a successful save of an argument whose own properties do not
      collide with the record's keys, a load returns the written document,
      whose typed view carries version 1, the clock reading, and the saved
      events, date and role. */
  lemma SaveThenLoad(store: Store, state: AppState, now: string)
    requires IsPlainState(state)
    ensures Load(Save(store, true, false, state, now), true) == Some(Payload(state, now))
    ensures Decode(Payload(state, now))
            == Some(PersistedState(StorageVersion, now, state.events, state.selectedDate, state.role))
  {
  }

  /** The spread goes last: an argument carrying its own `savedAt` is saved
      with that timestamp instead of the clock reading, and one carrying a
      `version` other than 1 is saved in a form the next load drops. */
  lemma SpreadOverridesStamp(store: Store, state: AppState, now: string)
    ensures "savedAt" in state.extra ==>
              Save(store, true, false, state, now)[StorageKey].doc.fields["savedAt"] == state.extra["savedAt"]
    ensures "version" in state.extra && state.extra["version"] != JNum(StorageVersion) ==>
              Load(Save(store, true, false, state, now), true) == None
  {
  }

  /** A save that does not happen is invisible to a later load. */
  lemma FailedSaveKeepsLoad(store: Store, available: bool, writeFails: bool, state: AppState, now: string)
    requires !available || writeFails
    ensures Load(Save(store, available, writeFails, state, now), available) == Load(store, available)
  {
  }

  /** Each save replaces the whole record: the earlier save leaves no trace. */
  lemma SaveOverwrites(store: Store, s1: AppState, t1: string, s2: AppState, t2: string)
    ensures Save(Save(store, true, false, s1, t1), true, false, s2, t2) == Save(store, true, false, s2, t2)
  {
  }

  /** A load reads no key but StorageKey. */
  lemma LoadReadsOnlyItsKey(a: Store, b: Store, available: bool)
    requires SameEntry(a, b, StorageKey)
    ensures Load(a, available) == Load(b, available)
  {
  }

  /** Clearing twice is clearing once, whatever happens to the second call. */
  lemma ClearIdempotent(store: Store, available: bool, removeFails: bool)
    ensures Clear(Clear(store, true, false), available, removeFails) == Clear(store, true, false)
  {
  }

  /** A load after a successful clear finds nothing, even after a save. */
  lemma ClearThenLoad(store: Store, state: AppState, now: string, available: bool)
    ensures Load(Clear(store, true, false), available) == None
    ensures Load(Clear(Save(store, true, false, state, now), true, false), available) == None
  {
  }

  /** The version guard: a document whose version is anything but 1 is
      dropped, even when it is otherwise a valid saved record. */
  lemma VersionGuard(store: Store, p: PersistedState, available: bool)
    requires p.version != StorageVersion
    requires StorageKey in store && store[StorageKey] == Doc(Encode(p))
    ensures Load(store, available) == None
  {
  }

  /** The shape guard: replacing `events` by a non-array drops the record. */
  lemma ShapeGuard(store: Store, p: PersistedState, bad: Json, available: bool)
    requires !bad.JArr?
    requires StorageKey in store && store[StorageKey] == Doc(JObj(Encode(p).fields["events" := bad]))
    ensures Load(store, available) == None
  {
  }
}

=== FILE: staff_view.dfy ===
/** The roster logic inside the staff screen (components/StaffView.tsx): the
    search/group/site filter, the date label, the status message, and the
    "mark unavailable" update of the operator list. */
module StaffView {
  import opened Wrappers
  import opened Text

  /** A staff member, with the fields the screen reads or writes. Fields the
      screen falls back from when missing (licence, site, subgroup, status
      text) are Options; specializations and hours are kept as a plain
      sequence and integer, their missing values read as empty and zero. */
  datatype Operator = Operator(
    id: string,
    name: string,
    rank: string,
    qualification: string,
    tipoPatente: Option<string>,
    specializations: seq<string>,
    sede: Option<string>,
    group: string,
    subgroup: Option<string>,
    assignedHours: int,
    available: bool,
    statusMessage: Option<string>)

  /** The three filter controls of the screen. */
  datatype Criteria = Criteria(search: string, groupFilter: string, sedeFilter: string)

  /** The choices that switch the group and site filters off. */
  const AllGroups: string := "TUTTI"
  const AllSites: string := "TUTTE"

  /** The absence causes offered by the dialog, and the one it starts on. */
  const Reasons: seq<string> := ["Indisposizione", "Ferie", "Articoli"]
  const DefaultReason: string := "Ferie"

  /** What a JavaScript template prints for a missing array element. */
  const Undefined: string := "undefined"

  /** The contents of the unavailability dialog: a cause and two dates as
      the date inputs give them. */
  datatype Unavailability = Unavailability(reason: string, startDate: string, endDate: string)

  // ---------------------------------------------------------------------------
  // The filter
  // ---------------------------------------------------------------------------

  /** An operator is listed when its lower-cased name or id contains the
      lower-cased search, its subgroup is the chosen group (or the group filter
      is off), and its site is the chosen site (or the site filter is off). With
      every filter off, everyone is listed; a match needs a name or id at least
      as long as the search. */
  function Keeps(op: Operator, c: Criteria): (b: bool)
    ensures c == Criteria("", AllGroups, AllSites) ==> b
    ensures b ==> |c.search| <= |op.name| || |c.search| <= |op.id|
  {
    assert ToLower("") == "";
    ContainsEmpty(ToLower(op.name));
    var needle := ToLower(c.search);
    var matchesSearch := Contains(ToLower(op.name), needle) || Contains(ToLower(op.id), needle);
    var matchesGroup := c.groupFilter == AllGroups || op.subgroup == Some(c.groupFilter);
    var matchesSede := c.sedeFilter == AllSites || op.sede == Some(c.sedeFilter);
    matchesSearch && matchesGroup && matchesSede
  }

  /** The operators shown in the table, in list order. */
  function FilterOperators(ops: seq<Operator>, c: Criteria): (r: seq<Operator>)
    ensures |r| <= |ops|
    ensures forall i :: 0 <= i < |r| ==> r[i] in ops && Keeps(r[i], c)
    decreases |ops|
  {
    if |ops| == 0 then []
    else if Keeps(ops[0], c) then [ops[0]] + FilterOperators(ops[1..], c)
    else FilterOperators(ops[1..], c)
  }

  /** `xs` can be obtained from `ys` by deleting elements, order kept. */
  predicate IsSubsequence<T(==)>(xs: seq<T>, ys: seq<T>)
    decreases |ys|
  {
    if |xs| == 0 then true
    else if |ys| == 0 then false
    else if xs[0] == ys[0] then IsSubsequence(xs[1..], ys[1..])
    else IsSubsequence(xs, ys[1..])
  }

  /** The filtered list is an order-preserving subsequence of the roster. */
  lemma {:induction false} FilterIsSubsequence(ops: seq<Operator>, c: Criteria)
    ensures IsSubsequence(FilterOperators(ops, c), ops)
    decreases |ops|
  {
    if |ops| > 0 {
      FilterIsSubsequence(ops[1..], c);
      var r := FilterOperators(ops, c);
      var rest := FilterOperators(ops[1..], c);
      if Keeps(ops[0], c) {
        assert r == [ops[0]] + rest;
        assert r[1..] == rest;
      } else {
        assert r == rest;
        if |r| > 0 {
          assert Keeps(r[0], c);
          assert r[0] != ops[0];
        }
      }
    }
  }

  /** An operator is shown exactly when it is on the roster and passes
      all three filters. */
  lemma {:induction false} FilterKeepsExactly(ops: seq<Operator>, c: Criteria, op: Operator)
    ensures op in FilterOperators(ops, c) <==> op in ops && Keeps(op, c)
    decreases |ops|
  {
    if |ops| > 0 {
      FilterKeepsExactly(ops[1..], c, op);
      assert ops == [ops[0]] + ops[1..];
    }
  }

  /** Filtering distributes over concatenation, so the result is determined
      operator by operator. */
  lemma {:induction false} FilterAppend(a: seq<Operator>, b: seq<Operator>, c: Criteria)
    ensures FilterOperators(a + b, c) == FilterOperators(a, c) + FilterOperators(b, c)
    decreases |a|
  {
    if |a| > 0 {
      FilterAppend(a[1..], b, c);
      assert (a + b)[1..] == a[1..] + b;
    } else {
      assert a + b == b;
    }
  }

  /** Applying the same filters to the filtered list changes nothing. */
  lemma {:induction false} FilterIdempotent(ops: seq<Operator>, c: Criteria)
    ensures FilterOperators(FilterOperators(ops, c), c) == FilterOperators(ops, c)
    decreases |ops|
  {
    if |ops| > 0 {
      FilterIdempotent(ops[1..], c);
      var rest := FilterOperators(ops[1..], c);
      if Keeps(ops[0], c) {
        assert ([ops[0]] + rest)[1..] == rest;
      }
    }
  }

  /** With an empty search and both selectors on their "all" choice, the
      whole roster is shown. */
  lemma {:induction false} FilterWithoutCriteria(ops: seq<Operator>)
    ensures FilterOperators(ops, Criteria("", AllGroups, AllSites)) == ops
    decreases |ops|
  {
    if |ops| > 0 {
      FilterWithoutCriteria(ops[1..]);
      assert [ops[0]] + ops[1..] == ops;
    }
  }

  /** The search ignores the case the user typed it in. */
  lemma SearchIgnoresCase(op: Operator, c: Criteria)
    ensures Keeps(op, c.(search := ToUpper(c.search))) == Keeps(op, c)
  {
    LowerForgetsCase(c.search);
  }

  // ---------------------------------------------------------------------------
  // Date label and status message
  // ---------------------------------------------------------------------------

  /** Element `i` of a destructured array, or what a template prints when it
      is missing. */
  function PartOr(parts: seq<string>, i: nat): (p: string)
    ensures i >= |parts| ==> p == Undefined
  {
    if i < |parts| then parts[i] else Undefined
  }

  predicate IsDigit(c: char) { '0' <= c <= '9' }

  /** The value of a filled date input: `YYYY-MM-DD`. */
  predicate IsIsoDate(s: string) {
    && |s| == 10 && s[4] == '-' && s[7] == '-'
    && (forall i :: 0 <= i < 4 ==> IsDigit(s[i]))
    && IsDigit(s[5]) && IsDigit(s[6]) && IsDigit(s[8]) && IsDigit(s[9])
  }

  /** An ISO date splits into its year, month and day. */
  lemma SplitIsoDate(s: string)
    requires IsIsoDate(s)
    ensures Split(s, '-') == [s[..4], s[5..7], s[8..]]
  {
    var y, m, d := s[..4], s[5..7], s[8..];
    assert forall i :: 0 <= i < |y| ==> y[i] == s[i];
    assert '-' !in y;
    assert m == [s[5], s[6]] && d == [s[8], s[9]];
    assert s == y + ['-'] + (m + ['-'] + d);
    SplitSingle(d, '-');
    SplitAfterPart(m, d, '-');
    SplitAfterPart(y, m + ['-'] + d, '-');
  }

  /** `YYYY-MM-DD` to `DD/MM/YYYY`: split on dashes and print the first three
      parts in reverse order, slash-separated. A text without dashes (an
      emptied date input, say) lacks the month and the day, and the label
      prints them as `undefined`. */
  function FormatDateLabel(dateStr: string): (formatted: string)
    ensures IsIsoDate(dateStr) ==> formatted == dateStr[8..] + "/" + dateStr[5..7] + "/" + dateStr[..4]
    ensures '-' !in dateStr ==> formatted == "undefined/undefined/" + dateStr
  {
    var parts := Split(dateStr, '-');
    assert IsIsoDate(dateStr) ==> parts == [dateStr[..4], dateStr[5..7], dateStr[8..]] by {
      if IsIsoDate(dateStr) { SplitIsoDate(dateStr); }
    }
    assert '-' !in dateStr ==> parts == [dateStr] by {
      if '-' !in dateStr { SplitSingle(dateStr, '-'); }
    }
    PartOr(parts, 2) + "/" + PartOr(parts, 1) + "/" + PartOr(parts, 0)
  }

  /** Three dash-free parts joined by dashes come out reversed and joined by
      slashes; anything after a third dash is dropped. */
  lemma FormatDateLabelOfParts(y: string, m: string, d: string, tail: seq<string>)
    requires '-' !in y && '-' !in m && '-' !in d
    ensures FormatDateLabel(y + "-" + m + "-" + d) == d + "/" + m + "/" + y
    ensures FormatDateLabel(y + "-" + m + "-" + d + "-" + Join(tail, '-')) == d + "/" + m + "/" + y
  {
    SplitSingle(d, '-');
    SplitAfterPart(m, d, '-');
    SplitAfterPart(y, m + "-" + d, '-');
    assert y + "-" + m + "-" + d == y + ['-'] + (m + ['-'] + d);
    var rest := Join(tail, '-');
    SplitAfterPart(d, rest, '-');
    SplitAfterPart(m, d + "-" + rest, '-');
    SplitAfterPart(y, m + "-" + (d + "-" + rest), '-');
    assert y + "-" + m + "-" + d + "-" + rest == y + ['-'] + (m + ['-'] + (d + ['-'] + rest));
  }

  /** An ISO date is labelled with ten characters, slashes at positions 2
      and 5. */
  lemma FormatIsoDate(s: string)
    requires IsIsoDate(s)
    ensures |FormatDateLabel(s)| == 10
    ensures FormatDateLabel(s)[2] == '/' && FormatDateLabel(s)[5] == '/'
  {
  }

  /** Distinct ISO dates get distinct labels. */
  lemma IsoLabelInjective(a: string, b: string)
    requires IsIsoDate(a) && IsIsoDate(b)
    requires FormatDateLabel(a) == FormatDateLabel(b)
    ensures a == b
  {
    FormatIsoDate(a);
    FormatIsoDate(b);
    var la, lb := FormatDateLabel(a), FormatDateLabel(b);
    assert a[8..] == la[..2] == lb[..2] == b[8..];
    assert a[5..7] == la[3..5] == lb[3..5] == b[5..7];
    assert a[..4] == la[6..] == lb[6..] == b[..4];
    assert a == a[..4] + "-" + a[5..7] + "-" + a[8..];
    assert b == b[..4] + "-" + b[5..7] + "-" + b[8..];
  }

  /** The status text: the upper-cased cause, then the two date labels in
      parentheses, separated by a dash. */
  function StatusMessage(u: Unavailability): (msg: string)
    ensures |msg| >= |u.reason| + 2 && msg[..|u.reason| + 2] == ToUpper(u.reason) + " ("
    ensures msg[|msg| - 1] == ')'
    ensures IsIsoDate(u.startDate) && IsIsoDate(u.endDate) ==> |msg| == |u.reason| + 26
  {
    var head := ToUpper(u.reason) + " (";
    var msg := head + FormatDateLabel(u.startDate) + " - " + FormatDateLabel(u.endDate) + ")";
    assert msg[..|head|] == head;
    msg
  }

  /** Each offered cause has the upper-case spelling the status shows. */
  lemma ReasonsUpperCase()
    ensures ToUpper(Reasons[0]) == "INDISPOSIZIONE"
    ensures ToUpper(Reasons[1]) == "FERIE"
    ensures ToUpper(Reasons[2]) == "ARTICOLI"
  {
  }

  /** With two filled date inputs, the status text for any cause is
      `CAUSE (DD/MM/YYYY - DD/MM/YYYY)`, 26 characters longer than the cause. */
  lemma StatusMessageFormat(u: Unavailability)
    requires IsIsoDate(u.startDate) && IsIsoDate(u.endDate)
    ensures StatusMessage(u)
            == ToUpper(u.reason) + " ("
               + u.startDate[8..] + "/" + u.startDate[5..7] + "/" + u.startDate[..4] + " - "
               + u.endDate[8..] + "/" + u.endDate[5..7] + "/" + u.endDate[..4] + ")"
    ensures |StatusMessage(u)| == |u.reason| + 26
  {
  }

  /** The status of an offered cause starts with one of the three upper-case
      spellings. */
  lemma OfferedCauseStatus(u: Unavailability)
    requires u.reason in Reasons
    ensures ToUpper(u.reason) in ["INDISPOSIZIONE", "FERIE", "ARTICOLI"]
    ensures StatusMessage(u)[..|u.reason|] in ["INDISPOSIZIONE", "FERIE", "ARTICOLI"]
  {
    ReasonsUpperCase();
    var msg := StatusMessage(u);
    assert msg[..|u.reason|] == msg[..|u.reason| + 2][..|u.reason|];
  }

  /** Opening the dialog for an operator: the cause starts on `Ferie`, one
      of the offered causes, and both dates on today's date, so saving it
      unchanged on an ISO day gives the one-day status
      `FERIE (DD/MM/YYYY - DD/MM/YYYY)`. */
  function OpenDialog(today: string): (u: Unavailability)
    ensures u.reason in Reasons
    ensures IsIsoDate(today) ==>
              && StatusMessage(u) == "FERIE (" + FormatDateLabel(today) + " - " + FormatDateLabel(today) + ")"
              && |StatusMessage(u)| == 31
  {
    ReasonsUpperCase();
    Unavailability(DefaultReason, today, today)
  }

  // ---------------------------------------------------------------------------
  // Marking an operator unavailable
  // ---------------------------------------------------------------------------

  /** `b` is `a` with at most its availability, hours and status changed. */
  predicate SameExceptStatus(a: Operator, b: Operator) {
    && a.id == b.id && a.name == b.name && a.rank == b.rank
    && a.qualification == b.qualification && a.tipoPatente == b.tipoPatente
    && a.specializations == b.specializations && a.sede == b.sede
    && a.group == b.group && a.subgroup == b.subgroup
  }

  /** `b` is `a` marked unavailable with status `msg`. */
  predicate IsWithdrawn(a: Operator, b: Operator, msg: string) {
    && SameExceptStatus(a, b)
    && !b.available && b.assignedHours == 0 && b.statusMessage == Some(msg)
  }

  /** The spread update applied to the selected operator. */
  function Withdraw(op: Operator, msg: string): (r: Operator)
    ensures IsWithdrawn(op, r, msg)
  {
    op.(available := false, assignedHours := 0, statusMessage := Some(msg))
  }

  /** The roster after marking every operator with identifier `id`
      unavailable; every other operator is kept as it was. */
  function MarkUnavailable(ops: seq<Operator>, id: string, msg: string): (r: seq<Operator>)
    ensures |r| == |ops|
    ensures forall i :: 0 <= i < |ops| ==> r[i].id == ops[i].id
    ensures forall i :: 0 <= i < |ops| && ops[i].id == id ==> IsWithdrawn(ops[i], r[i], msg)
    ensures forall i :: 0 <= i < |ops| && ops[i].id != id ==> r[i] == ops[i]
    decreases |ops|
  {
    if |ops| == 0 then []
    else [if ops[0].id == id then Withdraw(ops[0], msg) else ops[0]] + MarkUnavailable(ops[1..], id, msg)
  }

  /** The "save" button of the dialog: with no operator selected the roster is
      left alone; otherwise the selected identifier is marked with the status
      text built from the dialog. */
  function SaveUnavailability(ops: seq<Operator>, selected: Option<Operator>, u: Unavailability): (r: seq<Operator>)
    ensures selected.None? ==> r == ops
    ensures |r| == |ops|
    ensures selected.Some? ==>
      forall i :: 0 <= i < |ops| && ops[i].id == selected.value.id ==> IsWithdrawn(ops[i], r[i], StatusMessage(u))
    ensures selected.Some? ==>
      forall i :: 0 <= i < |ops| && ops[i].id != selected.value.id ==> r[i] == ops[i]
  {
    if selected.None? then ops
    else MarkUnavailable(ops, selected.value.id, StatusMessage(u))
  }

  /** Marking the same operator twice with the same text is marking once. */
  lemma MarkUnavailableIdempotent(ops: seq<Operator>, id: string, msg: string)
    ensures MarkUnavailable(MarkUnavailable(ops, id, msg), id, msg) == MarkUnavailable(ops, id, msg)
  {
    var once := MarkUnavailable(ops, id, msg);
    var twice := MarkUnavailable(once, id, msg);
    assert forall i :: 0 <= i < |ops| ==> twice[i] == once[i];
  }

  /** After the update an operator is available exactly when it was before
      and carries another identifier. */
  lemma MarkUnavailableAvailability(ops: seq<Operator>, id: string, msg: string, i: int)
    requires 0 <= i < |ops|
    ensures MarkUnavailable(ops, id, msg)[i].available <==> ops[i].available && ops[i].id != id
  {
  }

  /** Marking an operator unavailable does not change who the filters show:
      filtering the updated roster equals updating the filtered one. */
  lemma {:induction false} MarkUnavailableKeepsFilter(ops: seq<Operator>, id: string, msg: string, c: Criteria)
    ensures FilterOperators(MarkUnavailable(ops, id, msg), c) == MarkUnavailable(FilterOperators(ops, c), id, msg)
    decreases |ops|
  {
    if |ops| > 0 {
      MarkUnavailableKeepsFilter(ops[1..], id, msg, c);
      var marked := MarkUnavailable(ops, id, msg);
      assert marked[1..] == MarkUnavailable(ops[1..], id, msg);
      assert Keeps(marked[0], c) == Keeps(ops[0], c);
      if Keeps(ops[0], c) {
        var rest := FilterOperators(ops[1..], c);
        assert ([ops[0]] + rest)[1..] == rest;
      }
    }
  }
}

=== FILE: text.dfy ===
/** The string operations the roster screen relies on: ASCII case mapping
    (`toLowerCase`/`toUpperCase` restricted to ASCII letters), substring search
    (`includes`) and splitting on a separator (`split`). */
module Text {

  predicate IsUpperAscii(c: char) { 'A' <= c <= 'Z' }
  predicate IsLowerAscii(c: char) { 'a' <= c <= 'z' }

  function LowerChar(c: char): (r: char)
    ensures IsUpperAscii(c) ==> IsLowerAscii(r) && r as int == c as int + 32
    ensures !IsUpperAscii(c) ==> r == c
  {
    if IsUpperAscii(c) then (c as int + 32) as char else c
  }

  function UpperChar(c: char): (r: char)
    ensures IsLowerAscii(c) ==> IsUpperAscii(r) && r as int == c as int - 32
    ensures !IsLowerAscii(c) ==> r == c
  {
    if IsLowerAscii(c) then (c as int - 32) as char else c
  }

  /** The lower-cased text: same length, every upper-case ASCII letter turned
      into its lower-case letter, and every other character kept in place. */
  function ToLower(s: string): (r: string)
    ensures |r| == |s|
    ensures forall i :: 0 <= i < |r| ==> !IsUpperAscii(r[i])
    ensures forall i :: 0 <= i < |s| && IsUpperAscii(s[i]) ==> r[i] as int == s[i] as int + 32
    ensures forall i :: 0 <= i < |s| && !IsUpperAscii(s[i]) ==> r[i] == s[i]
  {
    seq(|s|, i requires 0 <= i < |s| => LowerChar(s[i]))
  }

  /** The upper-cased text: same length, every lower-case ASCII letter turned
      into its capital, and every other character kept in place. */
  function ToUpper(s: string): (r: string)
    ensures |r| == |s|
    ensures forall i :: 0 <= i < |r| ==> !IsLowerAscii(r[i])
    ensures forall i :: 0 <= i < |s| && IsLowerAscii(s[i]) ==> r[i] as int == s[i] as int - 32
    ensures forall i :: 0 <= i < |s| && !IsLowerAscii(s[i]) ==> r[i] == s[i]
  {
    seq(|s|, i requires 0 <= i < |s| => UpperChar(s[i]))
  }

  /** Lower-casing forgets the case a string was written in: upper-casing
      first changes nothing, and lower-casing twice is lower-casing once. */
  lemma LowerForgetsCase(s: string)
    ensures ToLower(ToUpper(s)) == ToLower(s)
    ensures ToLower(ToLower(s)) == ToLower(s)
  {
  }

  /** `sub` occurs in `s` starting at position `i`. */
  predicate OccursAt(s: string, sub: string, i: nat) {
    i + |sub| <= |s| && s[i..i + |sub|] == sub
  }

  /** Shifting the search one character to the right. */
  lemma OccursAtTail(s: string, sub: string)
    requires |s| > 0
    ensures forall i: nat {:trigger OccursAt(s[1..], sub, i)} :: OccursAt(s, sub, i + 1) <==> OccursAt(s[1..], sub, i)
  {
    forall i: nat
      ensures OccursAt(s, sub, i + 1) <==> OccursAt(s[1..], sub, i)
    {
      if i + 1 + |sub| <= |s| {
        var t := s[1..];
        var u, v := s[i + 1..i + 1 + |sub|], t[i..i + |sub|];
        assert forall k :: 0 <= k < |u| ==> u[k] == v[k];
        assert u == v;
      }
    }
  }

  /** `s.includes(sub)`: tries each start position from left to right. */
  function Contains(s: string, sub: string): (r: bool)
    ensures r <==> exists i: nat :: OccursAt(s, sub, i)
    decreases |s|
  {
    if |sub| <= |s| && s[..|sub|] == sub then
      assert OccursAt(s, sub, 0);
      true
    else if |s| == 0 then
      false
    else
      OccursAtTail(s, sub);
      var r := Contains(s[1..], sub);
      assert r ==> exists i: nat :: OccursAt(s, sub, i) by {
        if r {
          var i: nat :| OccursAt(s[1..], sub, i);
          assert OccursAt(s, sub, i + 1);
        }
      }
      assert (exists i: nat :: OccursAt(s, sub, i)) ==> r by {
        if exists i: nat :: OccursAt(s, sub, i) {
          var i: nat :| OccursAt(s, sub, i);
          assert i != 0;
          assert OccursAt(s[1..], sub, i - 1);
        }
      }
      r
  }

  /** The empty string occurs in every string. */
  lemma ContainsEmpty(s: string)
    ensures Contains(s, "")
  {
    assert OccursAt(s, "", 0);
  }

  /** `s.split([sep])`: the maximal runs between separators, in order. There is
      always at least one part: splitting the empty string gives `[""]`. */
  function Split(s: string, sep: char): (parts: seq<string>)
    ensures |parts| >= 1
    ensures forall i :: 0 <= i < |parts| ==> sep !in parts[i]
    decreases |s|
  {
    if |s| == 0 then [""]
    else
      var rest := Split(s[1..], sep);
      if s[0] == sep then [""] + rest
      else [[s[0]] + rest[0]] + rest[1..]
  }

  /** The parts glued back together with `sep` between them. */
  function Join(parts: seq<string>, sep: char): (s: string)
    decreases |parts|
  {
    if |parts| == 0 then ""
    else if |parts| == 1 then parts[0]
    else parts[0] + [sep] + Join(parts[1..], sep)
  }

  /** Splitting loses nothing: joining the parts gives back the string. */
  lemma {:induction false} JoinSplit(s: string, sep: char)
    ensures Join(Split(s, sep), sep) == s
    decreases |s|
  {
    if |s| > 0 {
      var rest := Split(s[1..], sep);
      JoinSplit(s[1..], sep);
      if s[0] == sep {
        assert Split(s, sep) == [""] + rest;
        assert s == [sep] + s[1..];
      } else {
        var parts := Split(s, sep);
        assert parts == [[s[0]] + rest[0]] + rest[1..];
        if |rest| == 1 {
          assert s == [s[0]] + s[1..];
        } else {
          assert rest == [rest[0]] + rest[1..];
          assert Join(rest, sep) == rest[0] + [sep] + Join(rest[1..], sep);
          assert parts[1..] == rest[1..];
          assert s == [s[0]] + s[1..];
        }
      }
    }
  }

  /** A string without the separator is a single part. */
  lemma {:induction false} SplitSingle(a: string, sep: char)
    requires sep !in a
    ensures Split(a, sep) == [a]
    decreases |a|
  {
    if |a| > 0 {
      SplitSingle(a[1..], sep);
      assert [a[0]] + a[1..] == a;
    }
  }

  /** A separator-free prefix followed by the separator is the first part. */
  lemma {:induction false} SplitAfterPart(a: string, b: string, sep: char)
    requires sep !in a
    ensures Split(a + [sep] + b, sep) == [a] + Split(b, sep)
    decreases |a|
  {
    var s := a + [sep] + b;
    if |a| == 0 {
      assert s == [sep] + b;
      assert s[1..] == b;
    } else {
      assert s[1..] == a[1..] + [sep] + b;
      SplitAfterPart(a[1..], b, sep);
      assert [a[0]] + a[1..] == a;
    }
  }

  /** Splitting inverts joining parts that hold no separator. */
  lemma {:induction false} SplitJoin(parts: seq<string>, sep: char)
    requires |parts| >= 1
    requires forall i :: 0 <= i < |parts| ==> sep !in parts[i]
    ensures Split(Join(parts, sep), sep) == parts
    decreases |parts|
  {
    if |parts| == 1 {
      SplitSingle(parts[0], sep);
    } else {
      SplitJoin(parts[1..], sep);
      SplitAfterPart(parts[0], Join(parts[1..], sep), sep);
      assert [parts[0]] + parts[1..] == parts;
    }
  }
}

=== FILE: wrappers.dfy ===
/** The absent-or-present value used for JavaScript's `null`/`undefined` and for
    optional record fields. */
module Wrappers {

  datatype Option<+T> = None | Some(value: T)
}
